=== FILE: README.md ===
# TTT game-room authority, modelled in Dafny

This project models the authoritative core of the TTT tic-tac-toe server:

- the room that owns a game: a player/mark registry and its reverse map, a
  message-id idempotency cache, and `Join` / `Submit` / `Leave` / `State`;
- the rule engine the room delegates to. Its types are modelled as declared,
  with a concrete `NewGame` / `ApplyMove` / `Outcome` behaving as the
  engine tests require;
- the matchmaker, as a pure pairing queue;
- from the WebSocket server:
  - the single pending slot that pairs anonymous arrivals into rooms;
  - the once-only disconnect handler;
  - one turn of a paired connection's reader loop on an already-decoded frame;
  - the pure helpers `itoa64`, `boardToStrings`, `outcomeText` and `engineErrCode`.

Everything is sequential and immutable. A room is a record threaded through
pure transition functions. The room's mutex only serialises calls, so it
becomes "every interleaving is some order of whole calls". Connections and
rooms, which the server shares by pointer, live in maps keyed by their ids.
What the server queues for a connection's writer is returned as a list of
envelopes.

Files and modules:

| file | module | models |
|---|---|---|
| base.dfy | `Base` | `Option`, `Result` |
| engine.dfy | `Engine` | internal/engine/engine.go and the engine the tests describe |
| room.dfy | `Rooms` | internal/match/room.go |
| matchmaker.dfy | `Matchmaking` | internal/match/matchmaker.go |
| decimal.dfy | `Decimal` | `itoa64` |
| wire.dfy | `Wire` | `boardToStrings`, `outcomeText`, `engineErrCode`, ASCII lower-casing |
| transport.dfy | `Transport` | `pair`, connection arrival, `handleDisconnect`, the reader loop |

Engine decisions:

- The checks run in the order terminal game, client sequence, turn, position
  range, occupied cell. Each engine test triggers exactly one of them.
- `Outcome` scans the eight lines in row, column, diagonal order, and the
  first full line decides. On a board where both players have a line, which
  no game reaches, that first line wins.

## Model

| member | source | states |
|---|---|---|
| Engine.OutcomeOf | test/engine_test.go:9-73 | X or O wins only when that mark fills a row, column or diagonal, and a line for one player alone makes that player the winner; the result is Draw exactly when the board is full with no line, and InProgress exactly when it is neither full nor has a line |
| Engine.NewGame | test/engine_test.go:76-77 | a new game has an empty board, X to move, server sequence 0, status in progress and no last move |
| Engine.ApplyMove | test/engine_test.go:75-167 | a move is accepted exactly when the game is in progress, the client sequence is the server sequence plus one, the mark is the one to move and the target cell is in range and empty; acceptance places the mark there and leaves every other cell alone, passes the turn, adds one to the server sequence, and sets the status to the new board's outcome; each failing condition, checked in order, yields its own sentinel |
| Engine.ErrorTextRoundTrip | internal/engine/engine.go:22-28 | each of the five sentinels carries its own message ("not your turn", "invalid position", "cell already taken", "out of order client seq", "game already finished"), which reads back as that sentinel and no other |
| Engine.ApplyMovePreservesConsistent | internal/transport/ws/server.go:181-185 | after an accepted move the status is the outcome of the new board, and a consistent (mark counts match the turn and the sequence, at most one player has a line, an in-progress status only on an undecided board) state stays consistent |
| Engine.NewGameConsistent | test/engine_test.go:76-77 | the new game is consistent (mark counts match the turn and the sequence, at most one player has a line, an in-progress status only on an undecided board), its board has no winner and it is in progress |
| Engine.ConsistentSeqBound | internal/engine/engine.go:45-51 | in a consistent state the server sequence is between 0 and 9 |
| Engine.FirstSeqIsOne | test/engine_test.go:125-140 | on a new game a move is accepted exactly when it carries client sequence 1, mark X and a cell in range |
| Engine.OutcomeTable | test/engine_test.go:17-62 | the five boards of the outcome test give X wins, O wins, X wins, draw and in progress |
| Engine.ValidFlow | test/engine_test.go:75-123 | X opening on cell 0 gives X on cell 0, O to move and sequence 1; X moving again is not its turn, and O onto cell 0 finds the cell taken |
| Engine.TerminalRefusesAll | test/engine_test.go:142-167 | every move on a finished game fails as terminal |
| Engine.OpeningMove | test/room_concurrency_test.go:30-52 | X's opening on cell 0 is accepted; then O's move with sequence 1 is out of order |
| Rooms.NewRoom | internal/match/room.go:41-51 | a new room holds a new game with an empty registry and cache and no joins |
| Rooms.NewRoomValid | internal/match/room.go:41-51 | a new room satisfies the room invariant |
| Rooms.Join | internal/match/room.go:55-80 | the same id with the same mark is a no-op, as is a mark owned by another id; otherwise the id is registered with the mark and the mark's owner set, while game, cache, id and options stay as they were |
| Rooms.JoinPreservesValid | internal/match/room.go:68-78 | `Join` keeps every registered id the owner of its mark, every owned mark owned by a registered id, and `joined` equal to the number of players |
| Rooms.JoinKeepsOwners | internal/match/room.go:68-71 | once a mark has an owner, `Join` never changes it |
| Rooms.OnePlayerPerMark | internal/match/room.go:68-78 | in a valid room two players with the same mark are the same player |
| Rooms.AtMostTwoPlayers | internal/match/room.go:68-78 | a valid room whose players all use X or O has at most two players |
| Rooms.Submit | internal/match/room.go:82-108 | a cached message id returns its recorded state and changes nothing; an unregistered id or a foreign mark is refused as not your turn with nothing changed; an engine refusal returns the current state and that error with nothing changed; a fresh move from its registered owner is accepted exactly when the engine accepts it, and then the engine's new state becomes the room's state and is recorded under its message id; the registry is never touched |
| Rooms.SubmitPreservesValid | internal/match/room.go:99-107 | `Submit` keeps the room invariant, because it commits only engine results |
| Rooms.Leave | internal/match/room.go:110-138 | an unknown id is a no-op; X leaving makes O the winner and O leaving makes X the winner, overwriting any earlier status; board, turn, sequence, registry and cache are untouched |
| Rooms.LeavePreservesValid | internal/match/room.go:110-138 | `Leave` keeps the room invariant |
| Rooms.LeaveIgnoresGrace | internal/match/room.go:119-137 | the grace period never changes the state `Leave` produces |
| Rooms.Snapshot | internal/match/room.go:140-144 | returns the room's current game state, unchanged |
| Rooms.SnapshotConsistent | internal/match/room.go:140-144 | the snapshot of a valid room is a consistent (mark counts match the turn and the sequence, at most one player has a line, an in-progress status only on an undecided board) game state with a sequence of at most 9 |
| Rooms.ReplayIsIdempotent | internal/match/room.go:86-89 | replaying a cached message id changes nothing and returns the recorded state, even after the game has ended |
| Rooms.RetryReturnsSameState | test/idempotency_test.go:27-42 | submitting an accepted move a second time returns the same state without error and changes nothing more |
| Rooms.SharedMsgIdAcceptsBoth | internal/match/room.go:86-89 | when X's and O's moves carry the same message id (both clients leaving it out share ""), X's move is accepted and O's is answered from the cache with X's state and no error, so neither is refused and "exactly one accepted" fails |
| Rooms.OmittedMsgIdReplays | internal/match/room.go:86-89 | once one move without a message id is accepted, every later such move is answered with that first state and never reaches the engine |
| Rooms.OutOfOrderAtRoomLevel | test/out_of_order_test.go:20-29 | on a fresh two-player room a first move with sequence 2 is refused as out of order and commits nothing |
| Rooms.TwoPlayerRoom | test/room_concurrency_test.go:16-24 | joining X and then O to a new room registers both, with a new game and an empty cache |
| Rooms.TwoPlayerRoomValid | internal/match/room.go:41-80 | a room with a new game and one player on each mark satisfies the room invariant |
| Rooms.BothInterleavings | test/room_concurrency_test.go:30-81 | with distinct player ids and distinct message ids, in both orders of "X on cell 0, seq 1" and "O on cell 1, seq 1", exactly one move is accepted and the other is refused as not your turn or out of order; both orders end in the same state, with X on cell 0, O to move and sequence 1 |
| Rooms.LeaveCreditsOpponent | test/disconnect_test.go:24-31 | in a two-player room without grace, O leaving makes X the winner and X leaving makes O the winner |
| Matchmaking.Enqueue | internal/match/matchmaker.go:5-19 | enqueue never fails; with nobody waiting the player waits; otherwise the waiting player becomes X and the arrival O in a newly numbered room with a non-empty id |
| Matchmaking.EnqueueAllPairs | test/matchmaker_test.go:58-76 | from an empty queue, n players give n/2 events; event k pairs player 2k as X with player 2k+1 as O; a player is left waiting exactly when n is odd, and it is the last one |
| Matchmaking.DistinctRoomIds | internal/match/matchmaker.go:5-9 | events whose room ids come from the counters 1, 2, … in order have pairwise distinct room ids |
| Matchmaking.EvenBatch | test/matchmaker_test.go:23-37 | an even number of distinct, non-empty players yields events with two distinct non-empty player ids each, and pairwise distinct non-empty room ids, with nobody left waiting |
| Matchmaking.MatchRoomIdInjective | internal/match/matchmaker.go:5-9 | distinct room numbers give distinct room ids |
| Matchmaking.SixtyPlayersThirtyRooms | test/matchmaker_test.go:51-77 | sixty enqueues emit thirty events |
| Decimal.Itoa | internal/transport/ws/server.go:249-261 | for n at least 0 the text is canonical decimal digits, with no leading zero except "0", whose value is n; for negative n it is empty |
| Decimal.Itoa64 | internal/transport/ws/server.go:249-261 | filling the 20-byte buffer from its end produces exactly the canonical rendering, which always fits |
| Decimal.ItoaInjective | internal/transport/ws/server.go:249-261 | two non-negative numbers render alike exactly when they are equal |
| Decimal.ItoaFitsBuffer | internal/transport/ws/server.go:253-259 | every non-negative int64 has at most 19 digits |
| Wire.BoardToStrings | internal/transport/ws/server.go:211-217 | nine strings, each reading back as the mark in its cell |
| Wire.BoardStringsRoundTrip | internal/transport/ws/server.go:211-217 | reading the strings back gives the original board |
| Wire.BoardToStringsInjective | internal/transport/ws/server.go:211-217 | different boards are sent as different strings |
| Wire.OutcomeTextRoundTrip | internal/transport/ws/server.go:219-230 | each outcome's text reads back as that outcome, so the four texts are distinct |
| Wire.ErrCode | internal/transport/ws/server.go:232-247 | the code is "UNKNOWN" exactly for errors that are not engine sentinels |
| Wire.ErrCodeRoundTrip | internal/transport/ws/server.go:232-247 | each sentinel gets its own code (NOT_YOUR_TURN, INVALID_POSITION, CELL_TAKEN, OUT_OF_ORDER, TERMINAL), which reads back as that sentinel |
| Wire.ErrCodeInjective | internal/transport/ws/server.go:232-247 | distinct sentinels get distinct codes |
| Wire.AsciiLower | internal/transport/ws/server.go:150 | the same length; a character changes exactly when it is an upper-case ASCII letter, each upper-case ASCII letter becomes the lower-case letter at the same place in the alphabet, and no upper-case ASCII letter remains |
| Wire.AsciiLowerIdempotent | internal/transport/ws/server.go:150 | lower-casing twice is lower-casing once |
| Transport.ConnIdInjective | internal/transport/ws/server.go:51 | distinct counter values give distinct connection ids |
| Transport.RoomNameInjective | internal/transport/ws/server.go:75 | distinct counter values give distinct room ids |
| Transport.Pair | internal/transport/ws/server.go:63-97 | with the slot empty, the arrival waits, no room is made and nothing is sent; otherwise the slot is cleared, the waiting connection gets X and the arrival O, each is the other's peer, both are bound to a fresh room named from the next counter value, holding both players and a new game, with no other connection or room changed; each gets its mark, then the empty board with the first mover told it is their turn |
| Transport.PairJoinsBoth | internal/transport/ws/server.go:76-83 | the room created is a new room without grace that the waiting connection joined as X and the arrival then as O |
| Transport.PairRoomValid | internal/transport/ws/server.go:76-83 | the room created satisfies the room invariant |
| Transport.StartTellsWhoMoves | internal/transport/ws/server.go:89-91 | the two start messages go to the two paired connections, and each says it is their turn exactly when their mark is the game's next turn |
| Transport.Arrive | internal/transport/ws/server.go:50-85 | an arrival adds exactly one connection, with the next connection id; if nobody was waiting it is added as a fresh connection, takes the slot and nothing is sent; otherwise the waiting connection gets X and the arrival O, each is the other's peer, both are bound to the new room `ws-room-` plus the following counter value, which holds exactly those two players, and the slot is emptied |
| Transport.ArriveMatched | internal/transport/ws/server.go:63-85 | with a connection waiting, the arrival and the waiting connection are paired in the next room and only that room is added |
| Transport.ArriveKeepsInv | internal/transport/ws/server.go:51-75 | no counter value not yet handed out names a connection or a room, and the waiting connection is known, so every new id is fresh |
| Transport.Arrivals | internal/transport/ws/server.go:40-97 | after k arrivals there are k connections and k/2 rooms, and a connection waits exactly when k is odd |
| Transport.Disconnect | internal/transport/ws/server.go:197-209 | a closed connection is left alone; otherwise it is closed, and if it has a room and an open peer the room records its leaving and the peer alone is sent the resulting outcome text, with nothing sent otherwise |
| Transport.DisconnectOnce | internal/transport/ws/server.go:198-200 | a second disconnect of the same connection changes nothing and sends nothing |
| Transport.PairedDisconnectForfeits | internal/transport/ws/server.go:202-206 | after pairing, whichever player disconnects first hands the win to the other, who is sent the matching result text |
| Transport.MoveCommand | internal/transport/ws/server.go:151-185 | an unpaired connection gets NOT_READY and a move without a position gets INVALID, with nothing changed; an engine or room refusal goes to the sender only, with the error's code and message; an accepted move sends the new state first to the sender and then to the peer, and when the game is over the outcome text next to the sender and then to the peer; with the peer check the peer's copies are left out |
| Transport.Step | internal/transport/ws/server.go:134-195 | a read failure or "leave" disconnects and ends the loop; a non-text frame and "ping" change nothing; an undecodable frame gets BAD_JSON and an unknown type UNKNOWN_TYPE, to the sender only; "move" is the move command; the type is matched ignoring ASCII case; only the sender and its peer are ever written to |
| Transport.StepIgnoresCase | internal/transport/ws/server.go:150 | a message type and its lower-cased form lead to the same turn |
| Transport.ReplayAfterPeerLeftWritesToClosed | internal/transport/ws/server.go:167-179 | replaying a cached message id after the peer has disconnected queues a message for the peer, whose send queue is closed |
| Transport.ReplayAfterLeaveIsReachable | internal/transport/ws/server.go:63-208 | right after pairing, X opening on cell 0, O leaving, and X resending the same move writes to O's closed queue |
| Transport.OpeningIsRecorded | internal/transport/ws/server.go:160-171 | X's opening move on a fresh paired room is accepted and recorded under its message id |
| Transport.LeaveKeepsHistory | internal/transport/ws/server.go:186-188 | a "leave" closes the leaver and changes no other connection and no room's cache |
| Transport.GuardedStep | internal/transport/ws/server.go:134-195 | with the peer check added, an open connection's turn never writes to a closed connection |
| Transport.GuardedStepDropsPeer | internal/transport/ws/server.go:167-179 | for an open connection whose peer is closed, the guarded turn is the turn as written with exactly the peer's messages removed, in order: same server, same loop decision, every reply to the sender kept |
| Transport.MoveDropsPeer | internal/transport/ws/server.go:167-179 | the same for the move command alone |
| Transport.GuardedStepAgreesWithOpenPeer | internal/transport/ws/server.go:172-185 | while the peer is open, the guarded turn is the turn as written |

## Left out

- The engine's code is a stub in the source (internal/engine/engine.go:60). The model's engine follows the engine tests. The order of its checks is one choice that fits them.
- Engine injection through the `Engine` interface: rooms and the server call the one concrete engine directly.
- `Mark` is a string type in Go. The model allows only the empty mark, X and O, which are the constants the code uses.
- The `LastMove` pointer becomes an `Option`.
- Integers are unbounded. The int64 wrap-around of `ServerSeq + 1` and of the server's id counter is not modelled. `Decimal.Itoa64` does model an int64 argument.
- Mutexes and atomics: every call runs alone. The concurrency test becomes both orders of the two calls.
- WebSocket accept, read and write; the writer goroutine; the send channel's capacity; the write timeout, and the messages it drops. Queued messages are an unbounded list of envelopes.
- JSON encoding and decoding, and `internal/proto/messages.go`. The reader is modelled on an already-decoded frame, and the decoder's error text is a parameter.
- `cmd/server/main.go`, and the `WriteTimeout` default in `NewServer`. Both are configuration.
- `Matchmaking.Enqueue`: the matchmaker is a stub in the source (internal/match/matchmaker.go:17-19).
  - The model calls back synchronously, by returning the event.
  - The "mm-room-" room-id format is the model's own choice.
  - `Close` is not modelled.
- `Transport.Step` and `Transport.MoveCommand` treat a connection as ready when its room and peer fields are set. In Go the reader's own arguments are tested, and they are always set for a paired connection.
- Wire.AsciiLower: lowers ASCII letters only, while Go's `strings.ToLower` also maps non-ASCII letters. The visible difference: Go lowers U+0130 (capital I with dot above) to `i`, so a type of "PİNG" is a ping in Go but gets `UNKNOWN_TYPE` from `Step`. Unicode case tables are not modelled.
- A waiting connection that disconnects before it is paired is not modelled. Go starts no reader for it, so the server never notices.
- Features the tests mention but the code does not implement:
  - room codes and `ROOM_FULL`;
  - bare-digit moves;
  - rejoin tokens;
  - grace-period rejoin.

## Findings

| source | as written | input that shows it | evidently intended | confidence | as-written member | corrected member |
|---|---|---|---|---|---|---|
| internal/transport/ws/server.go:167-179 | an accepted `Submit` result is always sent to the peer; a replayed message id counts as accepted even after the peer has disconnected and its send channel was closed at line 208, and a send on a closed channel panics in Go | pair two connections; X sends `{"type":"move","position":0,"clientSeq":1,"msgId":"m1"}`; O sends `{"type":"leave"}`; X resends the same move (or any move without a `msgId` after one was accepted) | messages for a peer whose send queue is closed are dropped, and the sender still gets its reply (`Transport.GuardedStepDropsPeer` proves the guarded turn is the written one minus exactly those messages) | medium (not executed) | Transport.ReplayAfterPeerLeftWritesToClosed | Transport.GuardedStep |

=== FILE: base.dfy ===
/** Small failure-carrying wrappers shared by every module of the model. */
module Base {

  /** A value that may be absent: Go's nil pointer or a missing map entry. */
  datatype Option<+T> = None | Some(value: T)

  /** A value or an error: Go's `(T, error)` return pair. */
  datatype Result<+T, +E> = Ok(value: T) | Err(error: E)
}

=== FILE: decimal.dfy ===
/**
 * Decimal rendering of the server's 64-bit counter, used to build
 * connection ids ("p1", "p2", ...) and room ids ("ws-room-3", ...).
 */
module Decimal {

  /** The values of Go's `int64`. */
  type Int64 = n: int | -0x8000_0000_0000_0000 <= n < 0x8000_0000_0000_0000

  predicate IsDigit(c: char)
  {
    '0' <= c <= '9'
  }

  predicate AllDigits(s: string)
  {
    forall i :: 0 <= i < |s| ==> IsDigit(s[i])
  }

  /** The character of a single decimal digit. */
  function DigitChar(d: int): (c: char)
    requires 0 <= d < 10
    ensures IsDigit(c) && (c as int) - ('0' as int) == d
  {
    (('0' as int) + d) as char
  }

  /** The number a string of digits denotes, read most significant digit first. */
  function Value(s: string): nat
    requires AllDigits(s)
  {
    if |s| == 0 then 0
    else Value(s[..|s| - 1]) * 10 + ((s[|s| - 1] as int) - ('0' as int))
  }

  /** A non-empty digit string without a leading zero, except "0" itself. */
  predicate Canonical(s: string)
  {
    && |s| > 0
    && AllDigits(s)
    && (s[0] == '0' ==> |s| == 1)
  }

  function Pow10(k: nat): nat
  {
    if k == 0 then 1 else 10 * Pow10(k - 1)
  }

  /**
   * `itoa64`: the canonical decimal digits of a non-negative number;
   * for a negative number the conversion loop never runs and the result
   * is the empty string.
   */
  function Itoa(n: int): (s: string)
    ensures n < 0 ==> s == ""
    ensures n >= 0 ==> Canonical(s) && Value(s) == n
    decreases if n < 0 then 0 else n
  {
    if n < 0 then ""
    else if n < 10 then [DigitChar(n)]
    else
      var s := Itoa(n / 10) + [DigitChar(n % 10)];
      assert s[..|s| - 1] == Itoa(n / 10);
      s
  }

  /** Distinct non-negative numbers render differently. */
  lemma ItoaInjective(a: int, b: int)
    requires a >= 0 && b >= 0
    ensures Itoa(a) == Itoa(b) <==> a == b
  {
  }

  /** A number below 10^k has at most k digits. */
  lemma {:induction false} ItoaLength(n: int, k: nat)
    requires 0 <= n < Pow10(k) && k >= 1
    ensures |Itoa(n)| <= k
    decreases k
  {
    if n >= 10 {
      assert Pow10(1) == 10;
      assert k >= 2;
      ItoaLength(n / 10, k - 1);
    }
  }

  /** Every non-negative `int64` has at most 19 digits, so it fits the 20-byte buffer. */
  lemma ItoaFitsBuffer(n: Int64)
    requires n >= 0
    ensures |Itoa(n)| <= 19
  {
    assert Pow10(5) == 100_000;
    assert Pow10(10) == 10_000_000_000;
    assert Pow10(15) == 1_000_000_000_000_000;
    assert Pow10(19) == 10_000_000_000_000_000_000;
    ItoaLength(n, 19);
  }

  /** One step of the conversion loop: the last digit of `m` ends its rendering. */
  lemma ItoaLastDigit(m: int)
    requires m > 0
    ensures Itoa(m) == (if m >= 10 then Itoa(m / 10) else "") + [DigitChar(m % 10)]
  {
  }

  /**
   * The buffer-filling loop of `itoa64`: digits are written from the end of
   * a 20-byte buffer towards its start, and the filled suffix is returned.
   */
  method Itoa64(n: Int64) returns (s: string)
    ensures s == Itoa(n)
    ensures |s| <= 20
  {
    if n == 0 {
      return "0";
    }
    var buf: seq<char> := [];
    var i := 20;
    var m: int := n;
    if n > 0 {
      ItoaFitsBuffer(n);
    }
    while m > 0
      invariant n < 0 ==> m == n && buf == []
      invariant n > 0 ==> 0 <= m && (m > 0 ==> Itoa(m) + buf == Itoa(n)) && (m == 0 ==> buf == Itoa(n))
      invariant n > 0 ==> |Itoa(n)| <= 19
      invariant 0 <= i <= 20 && |buf| == 20 - i
      decreases m
    {
      ItoaLastDigit(m);
      i := i - 1;
      if m >= 10 {
        assert Itoa(m / 10) + ([DigitChar(m % 10)] + buf) == Itoa(m) + buf;
      }
      buf := [DigitChar(m % 10)] + buf;
      m := m / 10;
    }
    s := buf;
  }
}

=== FILE: engine.dfy ===
/**
 * The tic-tac-toe rule engine: marks, outcomes, the five error sentinels,
 * the 9-cell board, moves and game states, together with a concrete
 * `NewGame` / `ApplyMove` / `OutcomeOf` whose behaviour is the one the
 * engine tests pin down.
 */
module Engine {
  import opened Base

  /** A cell content or a player's mark; `Empty` is the unset mark. */
  datatype Mark = Empty | X | O

  /** The other player's mark. */
  function Opponent(m: Mark): Mark
  {
    match m
    case X => O
    case O => X
    case Empty => Empty
  }

  datatype Outcome = InProgress | XWins | OWins | Draw

  /** The engine's error sentinels. */
  datatype Error = NotYourTurn | InvalidPosition | CellTaken | OutOfOrder | Terminal

  /** The sentinel's message, as its `Error()` method reports it. */
  function ErrorText(e: Error): (t: string)
    ensures |t| > 0
  {
    match e
    case NotYourTurn => "not your turn"
    case InvalidPosition => "invalid position"
    case CellTaken => "cell already taken"
    case OutOfOrder => "out of order client seq"
    case Terminal => "game already finished"
  }

  /** Reads a sentinel's message back; any other text names no sentinel. */
  function ParseErrorText(t: string): (r: Option<Error>)
    ensures r.Some? ==> ErrorText(r.value) == t
  {
    if t == "not your turn" then Some(NotYourTurn)
    else if t == "invalid position" then Some(InvalidPosition)
    else if t == "cell already taken" then Some(CellTaken)
    else if t == "out of order client seq" then Some(OutOfOrder)
    else if t == "game already finished" then Some(Terminal)
    else None
  }

  /** Each sentinel's message reads back as that sentinel. */
  lemma ErrorTextRoundTrip(e: Error)
    ensures ParseErrorText(ErrorText(e)) == Some(e)
  {
  }

  /** A cell index, row-major. */
  type Cell = i: int | 0 <= i < 9

  /** The board is exactly nine cells. */
  type Board = b: seq<Mark> | |b| == 9
    witness [Empty, Empty, Empty, Empty, Empty, Empty, Empty, Empty, Empty]

  datatype Move = Move(playerId: string, position: int, msgId: string, clientSeq: int, mark: Mark)

  datatype MoveInfo = MoveInfo(mark: Mark, pos: int)

  datatype State = State(board: Board, nextTurn: Mark, status: Outcome, serverSeq: int, lastMove: Option<MoveInfo>)

  /** The eight winning lines: three rows, three columns, two diagonals. */
  const Lines: seq<(Cell, Cell, Cell)> :=
    [(0, 1, 2), (3, 4, 5), (6, 7, 8),
     (0, 3, 6), (1, 4, 7), (2, 5, 8),
     (0, 4, 8), (2, 4, 6)]

  /** Line `k` of `b` holds `m` in all three of its cells. */
  predicate LineOf(b: Board, k: int, m: Mark)
    requires 0 <= k < |Lines|
  {
    b[Lines[k].0] == m && b[Lines[k].1] == m && b[Lines[k].2] == m
  }

  /** `m` is a player's mark that fills some whole line of `b`. */
  predicate HasLine(b: Board, m: Mark)
  {
    m != Empty && exists k :: 0 <= k < |Lines| && LineOf(b, k, m)
  }

  /** No cell of `b` is empty. */
  predicate Full(b: Board)
  {
    forall i :: 0 <= i < |b| ==> b[i] != Empty
  }

  /** Number of cells of `b` holding `m`. */
  function Count(b: seq<Mark>, m: Mark): nat
  {
    if |b| == 0 then 0 else (if b[0] == m then 1 else 0) + Count(b[1..], m)
  }

  /** The mark of the first winning line among lines `k..7`, or `Empty`. */
  function FirstWinner(b: Board, k: nat): (w: Mark)
    requires k <= |Lines|
    ensures w != Empty ==> exists j :: k <= j < |Lines| && LineOf(b, j, w)
    ensures w == Empty ==> forall j :: k <= j < |Lines| ==> !LineOf(b, j, X) && !LineOf(b, j, O)
    decreases |Lines| - k
  {
    if k == |Lines| then Empty
    else
      var (a, c, d) := Lines[k];
      if b[a] != Empty && b[a] == b[c] && b[c] == b[d] then
        assert LineOf(b, k, b[a]);
        b[a]
      else FirstWinner(b, k + 1)
  }

  /**
   * The outcome of a board: a player with a full line wins, a full board
   * without one is a draw, anything else is still in progress. When both
   * players have a line (a board no game reaches) the first line in
   * row, column, diagonal order decides.
   */
  function OutcomeOf(b: Board): (o: Outcome)
    ensures o == XWins ==> HasLine(b, X)
    ensures o == OWins ==> HasLine(b, O)
    ensures HasLine(b, X) && !HasLine(b, O) ==> o == XWins
    ensures HasLine(b, O) && !HasLine(b, X) ==> o == OWins
    ensures o == Draw <==> Full(b) && !HasLine(b, X) && !HasLine(b, O)
    ensures o == InProgress <==> !Full(b) && !HasLine(b, X) && !HasLine(b, O)
  {
    var w := FirstWinner(b, 0);
    if w == X then XWins
    else if w == O then OWins
    else if Empty in b then InProgress
    else Draw
  }

  const EmptyBoard: Board := [Empty, Empty, Empty, Empty, Empty, Empty, Empty, Empty, Empty]

  /** A fresh game: empty board, X to move, nothing accepted yet. */
  function NewGame(): (s: State)
    ensures s.nextTurn == X && s.serverSeq == 0 && s.status == InProgress
    ensures forall i :: 0 <= i < 9 ==> s.board[i] == Empty
    ensures s.lastMove == None
  {
    State(EmptyBoard, X, InProgress, 0, None)
  }

  /** Every condition a move must meet to be accepted. */
  predicate Legal(s: State, m: Move)
  {
    && s.status == InProgress
    && m.clientSeq == s.serverSeq + 1
    && m.mark != Empty && m.mark == s.nextTurn
    && 0 <= m.position < 9
    && s.board[m.position] == Empty
  }

  /**
   * Applies a move. The checks run in the order terminal game, client
   * sequence, turn, position range, occupied cell; the first that fails
   * names the error.
   */
  function ApplyMove(s: State, m: Move): (r: Result<State, Error>)
    ensures r.Ok? <==> Legal(s, m)
    ensures r.Ok? ==>
      && r.value.board[m.position] == m.mark
      && (forall i :: 0 <= i < 9 && i != m.position ==> r.value.board[i] == s.board[i])
      && r.value.nextTurn == Opponent(m.mark) && r.value.nextTurn != m.mark
      && r.value.serverSeq == s.serverSeq + 1
      && r.value.status == OutcomeOf(r.value.board)
      && r.value.lastMove == Some(MoveInfo(m.mark, m.position))
    ensures s.status != InProgress ==> r == Err(Terminal)
    ensures s.status == InProgress && m.clientSeq != s.serverSeq + 1 ==> r == Err(OutOfOrder)
    ensures (s.status == InProgress && m.clientSeq == s.serverSeq + 1
             && (m.mark == Empty || m.mark != s.nextTurn)) ==> r == Err(NotYourTurn)
    ensures (s.status == InProgress && m.clientSeq == s.serverSeq + 1
             && m.mark != Empty && m.mark == s.nextTurn
             && !(0 <= m.position < 9)) ==> r == Err(InvalidPosition)
    ensures (s.status == InProgress && m.clientSeq == s.serverSeq + 1
             && m.mark != Empty && m.mark == s.nextTurn
             && 0 <= m.position < 9 && s.board[m.position] != Empty) ==> r == Err(CellTaken)
  {
    if s.status != InProgress then Err(Terminal)
    else if m.clientSeq != s.serverSeq + 1 then Err(OutOfOrder)
    else if m.mark == Empty || m.mark != s.nextTurn then Err(NotYourTurn)
    else if !(0 <= m.position < 9) then Err(InvalidPosition)
    else if s.board[m.position] != Empty then Err(CellTaken)
    else
      var b: Board := s.board[m.position := m.mark];
      Ok(State(b, Opponent(m.mark), OutcomeOf(b), s.serverSeq + 1, Some(MoveInfo(m.mark, m.position))))
  }

  /**
   * Consistency: X has moved as often as O or once more and the turn says
   * who is next, the server sequence counts the marks on the board, at most
   * one player has a line, and a game still in progress has neither a line
   * nor a full board. Every state a game reaches is consistent; the converse
   * does not hold (a won board with a later move on it is consistent, but no
   * game reaches it).
   */
  predicate Consistent(s: State)
  {
    && Count(s.board, X) + Count(s.board, O) == s.serverSeq
    && ((s.nextTurn == X && Count(s.board, X) == Count(s.board, O))
        || (s.nextTurn == O && Count(s.board, X) == Count(s.board, O) + 1))
    && !(HasLine(s.board, X) && HasLine(s.board, O))
    && (s.status == InProgress ==> OutcomeOf(s.board) == InProgress)
  }

  /** Placing a player's mark on an empty cell adds one to that mark's count only. */
  lemma {:induction false} CountUpdate(b: seq<Mark>, i: nat, m: Mark, k: Mark)
    requires i < |b| && b[i] == Empty && m != Empty
    ensures Count(b[i := m], k) ==
            Count(b, k) + (if k == m then 1 else 0) - (if k == Empty then 1 else 0)
    decreases i
  {
    if i == 0 {
      assert b[i := m][1..] == b[1..];
    } else {
      assert b[i := m][1..] == b[1..][i - 1 := m];
      CountUpdate(b[1..], i - 1, m, k);
    }
  }

  /** The marks of every kind add up to the length of the board. */
  lemma {:induction false} CountTotal(b: seq<Mark>)
    ensures Count(b, X) + Count(b, O) + Count(b, Empty) == |b|
  {
    if |b| > 0 {
      CountTotal(b[1..]);
    }
  }

  /** A line of `other` after `m` is placed was already there before. */
  lemma LineSurvivesOnlyFromBefore(b: Board, p: Cell, m: Mark, other: Mark)
    requires other != m
    ensures HasLine(b[p := m], other) ==> HasLine(b, other)
  {
    var b': Board := b[p := m];
    if HasLine(b', other) {
      var k :| 0 <= k < |Lines| && LineOf(b', k, other);
      assert LineOf(b, k, other);
    }
  }

  /** A new game is consistent. */
  lemma NewGameConsistent()
    ensures Consistent(NewGame())
    ensures NewGame().status == InProgress && OutcomeOf(NewGame().board) == InProgress
  {
    var b := NewGame().board;
    assert Count(b, X) == 0 && Count(b, O) == 0;
    assert b[0] == Empty;
    assert forall k :: 0 <= k < |Lines| ==> b[Lines[k].0] == Empty;
  }

  /** A successful move keeps a consistent state consistent, and its status is the board's outcome. */
  lemma {:induction false} ApplyMovePreservesConsistent(s: State, m: Move)
    requires ApplyMove(s, m).Ok?
    ensures Consistent(s) ==> Consistent(ApplyMove(s, m).value)
    ensures ApplyMove(s, m).value.status == OutcomeOf(ApplyMove(s, m).value.board)
  {
    if !Consistent(s) {
      return;
    }
    var s' := ApplyMove(s, m).value;
    var p: Cell := m.position;
    assert s'.board == s.board[p := m.mark];
    CountUpdate(s.board, p, m.mark, X);
    CountUpdate(s.board, p, m.mark, O);
    LineSurvivesOnlyFromBefore(s.board, p, m.mark, Opponent(m.mark));
  }

  /** In a consistent state the server sequence is at most 9. */
  lemma ConsistentSeqBound(s: State)
    requires Consistent(s)
    ensures 0 <= s.serverSeq <= 9
  {
    CountTotal(s.board);
  }

  /** The only client sequence a move can be accepted with on a fresh game is 1. */
  lemma FirstSeqIsOne(m: Move)
    ensures ApplyMove(NewGame(), m).Ok? ==> m.clientSeq == 1
    ensures ApplyMove(NewGame(), m).Ok? <==> m.clientSeq == 1 && m.mark == X && 0 <= m.position < 9
  {
  }

  /** The five boards of the outcome test table evaluate to the expected outcomes. */
  lemma OutcomeTable()
    ensures OutcomeOf([X, X, X, Empty, O, Empty, Empty, O, Empty]) == XWins
    ensures OutcomeOf([X, O, Empty, Empty, O, X, Empty, O, Empty]) == OWins
    ensures OutcomeOf([X, O, Empty, Empty, X, O, Empty, Empty, X]) == XWins
    ensures OutcomeOf([X, O, X, X, O, O, O, X, X]) == Draw
    ensures OutcomeOf([X, O, X, Empty, O, Empty, O, X, Empty]) == InProgress
  {
    OutcomeRow();
    OutcomeColumn();
    OutcomeDiagonal();
    OutcomeFull();
    OutcomeOpen();
  }

  lemma OutcomeRow()
    ensures OutcomeOf([X, X, X, Empty, O, Empty, Empty, O, Empty]) == XWins
  {
  }

  lemma OutcomeColumn()
    ensures OutcomeOf([X, O, Empty, Empty, O, X, Empty, O, Empty]) == OWins
  {
  }

  lemma OutcomeDiagonal()
    ensures OutcomeOf([X, O, Empty, Empty, X, O, Empty, Empty, X]) == XWins
  {
  }

  lemma OutcomeFull()
    ensures OutcomeOf([X, O, X, X, O, O, O, X, X]) == Draw
  {
  }

  lemma OutcomeOpen()
    ensures OutcomeOf([X, O, X, Empty, O, Empty, O, X, Empty]) == InProgress
  {
  }

  /** The move sequence of the valid-flow test: X takes cell 0, then X again and O onto cell 0 are refused. */
  lemma ValidFlow()
    ensures ApplyMove(NewGame(), Move("px", 0, "m1", 1, X)).Ok?
    ensures var ns := ApplyMove(NewGame(), Move("px", 0, "m1", 1, X)).value;
      && ns.board[0] == X && ns.nextTurn == O && ns.serverSeq == 1
      && ApplyMove(ns, Move("px", 1, "m2", 2, X)) == Err(NotYourTurn)
      && ApplyMove(ns, Move("po", 0, "m3", 2, O)) == Err(CellTaken)
  {
    OpeningMove("px", "m1", "po", "m3");
  }

  /** X opening on cell 0 gives the expected state, on which O's first-sequence move is out of order. */
  lemma OpeningMove(px: string, mx: string, po: string, mo: string)
    ensures ApplyMove(NewGame(), Move(px, 0, mx, 1, X)).Ok?
    ensures var s1 := ApplyMove(NewGame(), Move(px, 0, mx, 1, X)).value;
      && s1.board[0] == X && s1.nextTurn == O && s1.serverSeq == 1
      && ApplyMove(s1, Move(po, 1, mo, 1, O)) == Err(OutOfOrder)
  {
  }

  /** A terminal game refuses every move, whatever else the move gets right. */
  lemma TerminalRefusesAll(s: State, m: Move)
    requires s.status != InProgress
    ensures ApplyMove(s, m) == Err(Terminal)
  {
  }
}

=== FILE: matchmaker.dfy ===
/**
 * The matchmaker as a pure pairing queue with the same shape as the
 * server's pending-slot pairing: at most one player waits; the next arrival
 * is paired with it, the earlier one taking X and the later one O, and one
 * room-created event is emitted per pair.
 */
module Matchmaking {
  import opened Base
  import opened Engine
  import opened Rooms
  import opened Decimal

  datatype RoomCreatedEvent = RoomCreatedEvent(roomId: string, x: Player, o: Player)

  /** The waiting player, if any, and the number of rooms created so far. */
  datatype Matchmaker = Matchmaker(waiting: Option<Player>, created: nat)

  /** What `Enqueue` hands back: the queue after the call and the event it emitted, if any. */
  datatype Enqueued = Enqueued(mm: Matchmaker, event: Option<RoomCreatedEvent>)

  function NewMatchmaker(): Matchmaker
  {
    Matchmaker(None, 0)
  }

  /** The id of the `n`-th room the matchmaker creates. */
  function MatchRoomId(n: nat): string
  {
    "mm-room-" + Itoa(n)
  }

  /**
   * Enqueues a player; it never fails. With nobody waiting the player
   * waits; otherwise the waiting player and this one form a room.
   */
  function Enqueue(mm: Matchmaker, p: Player): (r: Enqueued)
    ensures mm.waiting.None? ==> r.event.None? && r.mm == Matchmaker(Some(p), mm.created)
    ensures mm.waiting.Some? ==>
      && r.mm == Matchmaker(None, mm.created + 1)
      && r.event == Some(RoomCreatedEvent(MatchRoomId(mm.created + 1),
                                          Player(mm.waiting.value.id, X), Player(p.id, O)))
    ensures r.event.Some? ==> r.event.value.roomId != ""
  {
    match mm.waiting
    case None => Enqueued(Matchmaker(Some(p), mm.created), None)
    case Some(first) =>
      var n := mm.created + 1;
      Enqueued(Matchmaker(None, n), Some(RoomCreatedEvent(MatchRoomId(n), Player(first.id, X), Player(p.id, O))))
  }

  /** The queue after enqueuing `ps` in order, and the events emitted along the way. */
  datatype Batch = Batch(mm: Matchmaker, events: seq<RoomCreatedEvent>)

  function EnqueueAll(mm: Matchmaker, ps: seq<Player>): Batch
    decreases |ps|
  {
    if |ps| == 0 then Batch(mm, [])
    else
      var step := Enqueue(mm, ps[0]);
      var rest := EnqueueAll(step.mm, ps[1..]);
      Batch(rest.mm, (if step.event.Some? then [step.event.value] else []) + rest.events)
  }

  /** Player ids of `ps` are pairwise distinct. */
  predicate DistinctIds(ps: seq<Player>)
  {
    forall i, j :: 0 <= i < j < |ps| ==> ps[i].id != ps[j].id
  }

  /**
   * `b` is what enqueuing `ps` into a queue with an empty slot gives: one
   * event per pair, where event `k` makes `ps[2k]` X and `ps[2k+1]` O in
   * room number `mm.created + k + 1`, and an odd player left waiting.
   */
  predicate Paired(mm: Matchmaker, ps: seq<Player>, b: Batch)
  {
    && |b.events| == |ps| / 2
    && (b.mm.waiting.Some? <==> |ps| % 2 == 1)
    && (|ps| % 2 == 1 ==> b.mm.waiting == Some(ps[|ps| - 1]))
    && b.mm.created == mm.created + |ps| / 2
    && forall k :: 0 <= k < |b.events| ==>
         b.events[k] == RoomCreatedEvent(MatchRoomId(mm.created + k + 1),
                                         Player(ps[2 * k].id, X), Player(ps[2 * k + 1].id, O))
  }

  /** From an empty queue, `ps` enqueued in order emit one event per pair, as `Paired` describes. */
  lemma {:induction false} EnqueueAllPairs(mm: Matchmaker, ps: seq<Player>)
    requires mm.waiting.None?
    ensures Paired(mm, ps, EnqueueAll(mm, ps))
    decreases |ps|
  {
    if |ps| >= 2 {
      var next := Matchmaker(None, mm.created + 1);
      EnqueuePair(mm, ps);
      EnqueueAllPairs(next, ps[2..]);
      PairedStep(mm, ps, EnqueueAll(next, ps[2..]));
    } else if |ps| == 1 {
      assert EnqueueAll(Enqueue(mm, ps[0]).mm, ps[1..]) == Batch(Enqueue(mm, ps[0]).mm, []);
    }
  }

  /** The first pair's event in front of what the rest of `ps` gives is what all of `ps` gives. */
  lemma PairedStep(mm: Matchmaker, ps: seq<Player>, rest: Batch)
    requires mm.waiting.None? && |ps| >= 2
    requires Paired(Matchmaker(None, mm.created + 1), ps[2..], rest)
    ensures var ev := RoomCreatedEvent(MatchRoomId(mm.created + 1), Player(ps[0].id, X), Player(ps[1].id, O));
            Paired(mm, ps, Batch(rest.mm, [ev] + rest.events))
  {
    var ev := RoomCreatedEvent(MatchRoomId(mm.created + 1), Player(ps[0].id, X), Player(ps[1].id, O));
    var evs := [ev] + rest.events;
    assert |ps| % 2 == 1 ==> ps[2..][|ps[2..]| - 1] == ps[|ps| - 1];
    forall k | 0 <= k < |evs|
      ensures evs[k] == RoomCreatedEvent(MatchRoomId(mm.created + k + 1),
                                         Player(ps[2 * k].id, X), Player(ps[2 * k + 1].id, O))
    {
      if k > 0 {
        assert evs[k] == rest.events[k - 1];
        assert ps[2..][2 * (k - 1)] == ps[2 * k];
        assert ps[2..][2 * (k - 1) + 1] == ps[2 * k + 1];
      }
    }
  }

  /** From an empty queue, the first two players form the first room and the rest start over. */
  lemma EnqueuePair(mm: Matchmaker, ps: seq<Player>)
    requires mm.waiting.None? && |ps| >= 2
    ensures var next := Matchmaker(None, mm.created + 1);
      var ev := RoomCreatedEvent(MatchRoomId(mm.created + 1), Player(ps[0].id, X), Player(ps[1].id, O));
      EnqueueAll(mm, ps) == Batch(EnqueueAll(next, ps[2..]).mm, [ev] + EnqueueAll(next, ps[2..]).events)
  {
    assert ps[1..][1..] == ps[2..];
  }

  /**
   * Enqueuing 2n distinct players into a new matchmaker emits n events,
   * leaves nobody waiting, and every event pairs two distinct, non-empty
   * player ids in a room with a non-empty id distinct from every other
   * event's room id.
   */
  lemma EvenBatch(ps: seq<Player>)
    requires |ps| % 2 == 0
    requires DistinctIds(ps)
    requires forall i :: 0 <= i < |ps| ==> ps[i].id != ""
    ensures var b := EnqueueAll(NewMatchmaker(), ps);
      && |b.events| == |ps| / 2
      && b.mm.waiting.None?
      && (forall k :: 0 <= k < |b.events| ==>
            && b.events[k].x.id != b.events[k].o.id
            && b.events[k].x.id != "" && b.events[k].o.id != "" && b.events[k].roomId != "")
      && (forall k, l :: 0 <= k < l < |b.events| ==> b.events[k].roomId != b.events[l].roomId)
  {
    var b := EnqueueAll(NewMatchmaker(), ps);
    EnqueueAllPairs(NewMatchmaker(), ps);
    DistinctRoomIds(b.events);
    forall k | 0 <= k < |b.events|
      ensures b.events[k].x.id != b.events[k].o.id
    {
      assert b.events[k].x.id == ps[2 * k].id && b.events[k].o.id == ps[2 * k + 1].id;
    }
  }

  /** Events whose room ids come from the counters 1, 2, ... in order have pairwise distinct room ids. */
  lemma DistinctRoomIds(evs: seq<RoomCreatedEvent>)
    requires forall k :: 0 <= k < |evs| ==> evs[k].roomId == MatchRoomId(k + 1)
    ensures forall i, j :: 0 <= i < j < |evs| ==> evs[i].roomId != evs[j].roomId
  {
    forall i, j | 0 <= i < j < |evs|
      ensures evs[i].roomId != evs[j].roomId
    {
      MatchRoomIdInjective(i + 1, j + 1);
    }
  }

  /** Room ids built from distinct counters differ. */
  lemma MatchRoomIdInjective(a: nat, b: nat)
    requires a != b
    ensures MatchRoomId(a) != MatchRoomId(b)
  {
    assert MatchRoomId(a)[8..] == Itoa(a);
    assert MatchRoomId(b)[8..] == Itoa(b);
    ItoaInjective(a, b);
  }

  /** The sixty-player test: sixty enqueues make thirty rooms. */
  lemma SixtyPlayersThirtyRooms(ps: seq<Player>)
    requires |ps| == 60
    ensures |EnqueueAll(NewMatchmaker(), ps).events| == 30
  {
    EnqueueAllPairs(NewMatchmaker(), ps);
  }
}

=== FILE: room.dfy ===
/**
 * The game-room authority: the player/mark registry and its reverse map,
 * the message-id idempotency cache, and the `Join` / `Submit` / `Leave` /
 * `State` operations. The room's mutex only serialises calls, so the room
 * is an immutable record threaded through pure transition functions.
 */
module Rooms {
  import opened Base
  import opened Engine

  datatype Player = Player(id: string, mark: Mark)

  /** Grace period in nanoseconds; 0 asks for an immediate forfeit on leave. */
  datatype Options = Options(gracePeriod: int)

  datatype Room = Room(
    id: string,
    opts: Options,
    state: State,
    players: map<string, Mark>,   // player id -> mark
    marks: map<Mark, string>,     // mark -> player id
    hist: map<string, State>,     // message id -> state it produced
    joined: int)

  /** What `Submit` hands back: the room after the call, the state returned and the error, if any. */
  datatype Submission = Submission(room: Room, state: State, err: Option<Error>)

  /**
   * The room's invariant: every registered player owns the mark it is
   * registered with, every owned mark belongs to a registered player,
   * `joined` counts the players, and the game state is consistent: the
   * mark counts match the turn and the sequence, at most one player has a
   * line, and an in-progress status sits on an undecided board.
   */
  predicate Valid(r: Room)
  {
    Registered(r) && Consistent(r.state)
  }

  /** The registry half of `Valid`. */
  predicate Registered(r: Room)
  {
    && (forall p :: p in r.players ==> r.players[p] in r.marks && r.marks[r.players[p]] == p)
    && (forall m :: m in r.marks ==> r.marks[m] in r.players)
    && r.joined == |r.players|
  }

  /** A room with an empty registry and cache, holding a fresh game. */
  function NewRoom(id: string, opts: Options): (r: Room)
    ensures r.id == id && r.state == NewGame() && r.joined == 0
    ensures r.players == map[] && r.marks == map[] && r.hist == map[]
  {
    Room(id, opts, NewGame(), map[], map[], map[], 0)
  }

  lemma NewRoomValid(id: string, opts: Options)
    ensures Valid(NewRoom(id, opts))
  {
    NewGameConsistent();
  }

  /**
   * Registers a player. Rejoining with the same id and mark, or asking for
   * a mark another id already owns, is silently ignored; otherwise the
   * player is (re)registered with the mark and the mark's owner recorded.
   */
  function Join(r: Room, p: Player): (r': Room)
    ensures p.id in r.players && r.players[p.id] == p.mark ==> r' == r
    ensures p.mark in r.marks && r.marks[p.mark] != p.id ==> r' == r
    ensures !(p.id in r.players && r.players[p.id] == p.mark) && !(p.mark in r.marks && r.marks[p.mark] != p.id) ==>
      && r'.players == r.players[p.id := p.mark]
      && r'.marks == r.marks[p.mark := p.id]
    ensures r'.state == r.state && r'.hist == r.hist && r'.id == r.id && r'.opts == r.opts
  {
    if p.id in r.players && r.players[p.id] == p.mark then r
    else if p.mark in r.marks && r.marks[p.mark] != p.id then r
    else
      var players := r.players[p.id := p.mark];
      r.(players := players,
         marks := r.marks[p.mark := p.id],
         joined := if |players| > r.joined then |players| else r.joined)
  }

  /**
   * Submits a move: a cached message id replays its recorded state; an
   * unregistered player or a mark other than the registered one is refused
   * as not-your-turn; otherwise the engine decides, and only its success is
   * committed and recorded under the message id.
   */
  function Submit(r: Room, m: Move): (res: Submission)
    ensures m.msgId in r.hist ==> res == Submission(r, r.hist[m.msgId], None)
    ensures m.msgId !in r.hist && (m.playerId !in r.players || r.players[m.playerId] != m.mark) ==>
              res == Submission(r, r.state, Some(NotYourTurn))
    ensures (m.msgId !in r.hist && m.playerId in r.players && r.players[m.playerId] == m.mark
             && ApplyMove(r.state, m).Err?) ==>
              res == Submission(r, r.state, Some(ApplyMove(r.state, m).error))
    ensures (m.msgId !in r.hist && m.playerId in r.players && r.players[m.playerId] == m.mark
             && ApplyMove(r.state, m).Ok?) ==>
              res.err.None? && res.state == ApplyMove(r.state, m).value
    ensures res.err.None? && m.msgId !in r.hist ==>
      && ApplyMove(r.state, m) == Ok(res.state)
      && res.room == r.(state := res.state, hist := r.hist[m.msgId := res.state])
    ensures res.room.players == r.players && res.room.marks == r.marks && res.room.joined == r.joined
  {
    if m.msgId in r.hist then Submission(r, r.hist[m.msgId], None)
    else if m.playerId !in r.players || r.players[m.playerId] != m.mark then
      Submission(r, r.state, Some(NotYourTurn))
    else
      match ApplyMove(r.state, m)
      case Err(e) => Submission(r, r.state, Some(e))
      case Ok(ns) =>
        Submission(r.(state := ns, hist := r.hist[m.msgId := ns]), ns, None)
  }

  /**
   * A player leaves: an unknown id changes nothing; X leaving makes O the
   * winner and O leaving makes X the winner, overwriting whatever status the
   * game had. The grace period makes no difference.
   */
  function Leave(r: Room, playerId: string): (r': Room)
    ensures playerId !in r.players ==> r' == r
    ensures playerId in r.players && r.players[playerId] == X ==> r'.state.status == OWins
    ensures playerId in r.players && r.players[playerId] == O ==> r'.state.status == XWins
    ensures playerId in r.players && r.players[playerId] == Empty ==> r' == r
    ensures r'.state == r.state.(status := r'.state.status)
    ensures r' == r.(state := r'.state)
  {
    if playerId !in r.players then r
    else
      var leaver := r.players[playerId];
      if r.opts.gracePeriod == 0 then
        if leaver == X then r.(state := r.state.(status := OWins))
        else if leaver == O then r.(state := r.state.(status := XWins))
        else r
      else
        if leaver == X then r.(state := r.state.(status := OWins))
        else if leaver == O then r.(state := r.state.(status := XWins))
        else r
  }

  /** `Join` keeps the room valid. */
  lemma JoinPreservesValid(r: Room, p: Player)
    requires Valid(r)
    ensures Valid(Join(r, p))
  {
  }

  /** `Submit` keeps the room valid: it commits only states the engine produced from the current one. */
  lemma SubmitPreservesValid(r: Room, m: Move)
    requires Valid(r)
    ensures Valid(Submit(r, m).room)
  {
    if m.msgId !in r.hist && m.playerId in r.players && r.players[m.playerId] == m.mark && ApplyMove(r.state, m).Ok? {
      ApplyMovePreservesConsistent(r.state, m);
    }
  }

  /** `Leave` keeps the room valid, although a forfeit may set a status no board shows. */
  lemma LeavePreservesValid(r: Room, playerId: string)
    requires Valid(r)
    ensures Valid(Leave(r, playerId))
  {
  }

  /** A snapshot of the game state: the room's current state, unchanged. */
  function Snapshot(r: Room): (s: State)
    ensures s == r.state
  {
    r.state
  }

  /** A valid room's snapshot is a consistent game whose sequence is at most 9. */
  lemma SnapshotConsistent(r: Room)
    requires Valid(r)
    ensures Consistent(Snapshot(r)) && 0 <= Snapshot(r).serverSeq <= 9
  {
    ConsistentSeqBound(r.state);
  }

  /** The mark a registered id owns never changes hands: `Join` keeps every existing owner. */
  lemma JoinKeepsOwners(r: Room, p: Player, m: Mark)
    requires m in r.marks
    ensures m in Join(r, p).marks && Join(r, p).marks[m] == r.marks[m]
  {
  }

  /** In a valid room no two players share a mark. */
  lemma OnePlayerPerMark(r: Room, p: string, q: string)
    requires Valid(r)
    requires p in r.players && q in r.players && r.players[p] == r.players[q]
    ensures p == q
  {
  }

  /** When every registered mark is X or O, a valid room holds at most two players. */
  lemma AtMostTwoPlayers(r: Room)
    requires Valid(r)
    requires forall p :: p in r.players ==> r.players[p] != Empty
    ensures |r.players| <= 2
  {
    OwnersBound(r.players, r.marks);
  }

  /** A registry whose every player owns its non-empty mark has at most two players. */
  lemma OwnersBound(players: map<string, Mark>, marks: map<Mark, string>)
    requires forall p :: p in players ==> players[p] in marks && marks[players[p]] == p
    requires forall p :: p in players ==> players[p] != Empty
    ensures |players| <= 2
  {
    var owners := (if X in marks then {marks[X]} else {}) + (if O in marks then {marks[O]} else {});
    assert players.Keys <= owners by {
      forall p | p in players
        ensures p in owners
      {
        assert marks[players[p]] == p;
      }
    }
    assert |owners| <= 2;
    SubsetCard(players.Keys, owners);
  }

  lemma {:induction false} SubsetCard<T>(a: set<T>, b: set<T>)
    requires a <= b
    ensures |a| <= |b|
    decreases b
  {
    if a != {} {
      var x :| x in a;
      SubsetCard(a - {x}, b - {x});
    }
  }

  /** A replay changes nothing, even once the game has ended, and returns the recorded state. */
  lemma ReplayIsIdempotent(r: Room, m: Move)
    requires m.msgId in r.hist
    ensures Submit(r, m).room == r && Submit(r, m).err == None && Submit(r, m).state == r.hist[m.msgId]
  {
  }

  /** Submitting the same move twice returns the same state both times and changes the room once. */
  lemma RetryReturnsSameState(r: Room, m: Move)
    requires Submit(r, m).err == None
    ensures var first := Submit(r, m);
            var second := Submit(first.room, m);
            second.err == None && second.state == first.state && second.room == first.room
  {
  }

  /**
   * Moves sent without a message id all share the empty id: after one such
   * move succeeds, every later one is answered with that first state and
   * never reaches the engine.
   */
  lemma OmittedMsgIdReplays(r: Room, m1: Move, m2: Move)
    requires m1.msgId == "" && m2.msgId == ""
    requires Submit(r, m1).err == None
    ensures Submit(Submit(r, m1).room, m2) == Submission(Submit(r, m1).room, Submit(r, m1).state, None)
  {
  }

  /** The out-of-order test: a first move carrying client sequence 2 is refused and commits nothing. */
  lemma OutOfOrderAtRoomLevel(id: string, opts: Options, px: string, po: string, msg: string)
    requires px != po
    ensures var r := Join(Join(NewRoom(id, opts), Player(px, X)), Player(po, O));
            Submit(r, Move(px, 0, msg, 2, X)) == Submission(r, r.state, Some(OutOfOrder))
  {
  }

  /** Joining X then O to a new room registers both and leaves the game and cache untouched. */
  lemma TwoPlayerRoom(id: string, opts: Options, px: string, po: string)
    requires px != po
    ensures Join(Join(NewRoom(id, opts), Player(px, X)), Player(po, O))
         == Room(id, opts, NewGame(), map[px := X, po := O], map[X := px, O := po], map[], 2)
  {
    var r1 := Join(NewRoom(id, opts), Player(px, X));
    assert r1 == Room(id, opts, NewGame(), map[px := X], map[X := px], map[], 1);
    var r2 := Join(r1, Player(po, O));
    assert r2.players == map[px := X, po := O];
    assert |r2.players| == 2;
  }

  /** A room holding a new game with one player on each mark is valid. */
  lemma TwoPlayerRoomValid(r: Room, px: string, po: string)
    requires px != po
    requires r.state == NewGame() && r.players == map[px := X, po := O] && r.marks == map[X := px, O := po] && r.joined == 2
    ensures Valid(r)
  {
    TwoPlayerRegistry(r, px, po);
    NewGameConsistent();
  }

  /** One player on each mark is a well-formed registry. */
  lemma TwoPlayerRegistry(r: Room, px: string, po: string)
    requires px != po
    requires r.players == map[px := X, po := O] && r.marks == map[X := px, O := po] && r.joined == 2
    ensures Registered(r)
  {
    assert r.players.Keys == {px, po};
  }

  /** Exactly one of two results is a success and the other a turn or ordering refusal. */
  predicate OneAccepted(a: Option<Error>, b: Option<Error>)
  {
    || (a == None && (b == Some(NotYourTurn) || b == Some(OutOfOrder)))
    || (b == None && (a == Some(NotYourTurn) || a == Some(OutOfOrder)))
  }

  /**
   * The concurrency test as both interleavings: X's "cell 0, seq 1" and O's
   * "cell 1, seq 1" on a fresh room, in either order, accept exactly one
   * move and leave the same state, with X on cell 0, O to move and
   * server sequence 1.
   */
  lemma BothInterleavings(id: string, opts: Options, px: string, po: string, mx: string, mo: string)
    requires px != po && mx != mo
    ensures
      var r0 := Join(Join(NewRoom(id, opts), Player(px, X)), Player(po, O));
      var a := Move(px, 0, mx, 1, X);
      var b := Move(po, 1, mo, 1, O);
      var a1 := Submit(r0, a);
      var b2 := Submit(a1.room, b);
      var b1 := Submit(r0, b);
      var a2 := Submit(b1.room, a);
      && OneAccepted(a1.err, b2.err)
      && OneAccepted(b1.err, a2.err)
      && b2.room.state == a2.room.state
      && b2.room.state.serverSeq == 1 && b2.room.state.board[0] == X && b2.room.state.nextTurn == O
  {
    TwoPlayerRoom(id, opts, px, po);
    var r0 := Room(id, opts, NewGame(), map[px := X, po := O], map[X := px, O := po], map[], 2);
    XThenO(r0, px, po, mx, mo);
    OThenX(r0, px, po, mx, mo);
  }

  /**
   * With one message id shared by both moves (two clients that both leave
   * it out share ""), the cache answers O's move with X's state and no
   * error: neither move is refused, although only X's reached the game.
   */
  lemma SharedMsgIdAcceptsBoth(r0: Room, px: string, po: string, mid: string)
    requires px != po
    requires r0.state == NewGame() && r0.players == map[px := X, po := O] && r0.hist == map[]
    ensures var a1 := Submit(r0, Move(px, 0, mid, 1, X));
      var b2 := Submit(a1.room, Move(po, 1, mid, 1, O));
      && a1.err == None && b2.err == None
      && b2.state == a1.state && b2.room == a1.room
      && !OneAccepted(a1.err, b2.err)
  {
    OpeningMove(px, mid, po, mid);
  }

  /** X's move first on the two-player room: accepted, then O's is out of order. */
  lemma XThenO(r0: Room, px: string, po: string, mx: string, mo: string)
    requires px != po && mx != mo
    requires r0.state == NewGame() && r0.players == map[px := X, po := O] && r0.hist == map[]
    ensures var a1 := Submit(r0, Move(px, 0, mx, 1, X));
      var b2 := Submit(a1.room, Move(po, 1, mo, 1, O));
      && a1.err == None && b2.err == Some(OutOfOrder) && b2.room == a1.room
      && a1.room.state == ApplyMove(NewGame(), Move(px, 0, mx, 1, X)).value
  {
    OpeningMove(px, mx, po, mo);
  }

  /** O's move first on the two-player room: refused, then X's is accepted as if alone. */
  lemma OThenX(r0: Room, px: string, po: string, mx: string, mo: string)
    requires px != po && mx != mo
    requires r0.state == NewGame() && r0.players == map[px := X, po := O] && r0.hist == map[]
    ensures var b1 := Submit(r0, Move(po, 1, mo, 1, O));
      && b1.err == Some(NotYourTurn) && b1.room == r0
      && Submit(b1.room, Move(px, 0, mx, 1, X)) == Submit(r0, Move(px, 0, mx, 1, X))
  {
    assert ApplyMove(NewGame(), Move(po, 1, mo, 1, O)) == Err(NotYourTurn);
  }

  /** The disconnect test: O leaving a two-player room with no grace hands the win to X. */
  lemma LeaveCreditsOpponent(id: string, px: string, po: string)
    requires px != po
    ensures Leave(Join(Join(NewRoom(id, Options(0)), Player(px, X)), Player(po, O)), po).state.status == XWins
    ensures Leave(Join(Join(NewRoom(id, Options(0)), Player(px, X)), Player(po, O)), px).state.status == OWins
  {
  }

  /** The grace period never changes what `Leave` does. */
  lemma LeaveIgnoresGrace(r: Room, playerId: string, g: int)
    ensures Leave(r.(opts := Options(g)), playerId).state == Leave(r, playerId).state
  {
  }
}

=== FILE: transport.dfy ===
/**
 * The WebSocket server with the sockets stripped away: the single pending
 * slot that pairs anonymous arrivals into rooms, the once-only disconnect
 * handler that forfeits the game to the peer, and one turn of a paired
 * connection's reader loop on an already-decoded frame. Connections and
 * rooms, shared by pointer in the server, live in maps keyed by their ids;
 * what the server queues for a connection's writer is returned as a list
 * of envelopes.
 */
module Transport {
  import opened Base
  import opened Engine
  import opened Rooms
  import opened Decimal
  import opened Wire

  /** A connection: its mark, its peer's id, its room's id, and whether its send queue is closed. */
  datatype Conn = Conn(mark: Mark, peer: Option<string>, room: Option<string>, closed: bool)

  const FreshConn := Conn(Empty, None, None, false)

  /** The server-to-client messages this part of the server sends. */
  datatype ServerMsg =
    | Assigned(you: Mark)
    | Start(board: seq<string>, yourTurn: bool)
    | StateMsg(board: seq<string>, nextTurn: Mark, serverSeq: int)
    | ResultMsg(status: string)
    | ErrorMsg(code: string, detail: string)

  /** A message queued for the connection with id `to`. */
  datatype Envelope = Envelope(to: string, msg: ServerMsg)

  /** The pending slot, the id counter, and every connection and room by id. */
  datatype Server = Server(pending: Option<string>, counter: int, conns: map<string, Conn>, rooms: map<string, Room>)

  function NewServer(): Server
  {
    Server(None, 0, map[], map[])
  }

  /** The id of the connection that took counter value `n`. */
  function ConnId(n: int): string
  {
    "p" + Itoa(n)
  }

  /** The id of the room that took counter value `n`. */
  function RoomName(n: int): string
  {
    "ws-room-" + Itoa(n)
  }

  lemma ConnIdInjective(a: nat, b: nat)
    requires a != b
    ensures ConnId(a) != ConnId(b)
  {
    assert ConnId(a)[1..] == Itoa(a);
    assert ConnId(b)[1..] == Itoa(b);
    ItoaInjective(a, b);
  }

  lemma RoomNameInjective(a: nat, b: nat)
    requires a != b
    ensures RoomName(a) != RoomName(b)
  {
    assert RoomName(a)[8..] == Itoa(a);
    assert RoomName(b)[8..] == Itoa(b);
    ItoaInjective(a, b);
  }

  /**
   * No counter value not yet handed out names a connection or a room, and
   * the pending connection is a known one.
   */
  ghost predicate Inv(s: Server)
  {
    && s.counter >= 0
    && (forall j :: j > s.counter ==> ConnId(j) !in s.conns)
    && (forall j :: j > s.counter ==> RoomName(j) !in s.rooms)
    && (s.pending.Some? ==> s.pending.value in s.conns)
  }

  /** What `pair` hands back: the server after the call, whether a room was made, and the queued messages. */
  datatype PairResult = PairResult(server: Server, paired: bool, out: seq<Envelope>)

  /**
   * `pair`: with the slot empty, the arrival waits in it. Otherwise the
   * waiting connection takes X and the arrival O, each becomes the other's
   * peer, both are bound to a new room with no grace period and joined to it,
   * and each is sent its mark and then the start message.
   */
  function Pair(s: Server, c2: string): (r: PairResult)
    requires c2 in s.conns
    requires s.pending.Some? ==> s.pending.value in s.conns && s.pending.value != c2
    ensures s.pending.None? ==> r == PairResult(s.(pending := Some(c2)), false, [])
    ensures s.pending.Some? ==>
      var c1 := s.pending.value;
      var rid := RoomName(s.counter + 1);
      && r.paired && r.server.pending.None? && r.server.counter == s.counter + 1
      && r.server.conns.Keys == s.conns.Keys
      && r.server.conns[c1].mark == X && r.server.conns[c2].mark == O
      && r.server.conns[c1].peer == Some(c2) && r.server.conns[c2].peer == Some(c1)
      && r.server.conns[c1].room == Some(rid) && r.server.conns[c2].room == Some(rid)
      && r.server.conns[c1].closed == s.conns[c1].closed && r.server.conns[c2].closed == s.conns[c2].closed
      && (forall c :: c in s.conns && c != c1 && c != c2 ==> r.server.conns[c] == s.conns[c])
      && r.server.rooms.Keys == s.rooms.Keys + {rid}
      && (forall id :: id in s.rooms && id != rid ==> r.server.rooms[id] == s.rooms[id])
      && r.server.rooms[rid].players == map[c1 := X, c2 := O]
      && r.server.rooms[rid].marks == map[X := c1, O := c2]
      && r.server.rooms[rid].state == NewGame()
      && r.out == [Envelope(c1, Assigned(X)), Envelope(c2, Assigned(O)),
                   Envelope(c1, Start(BoardToStrings(EmptyBoard), true)),
                   Envelope(c2, Start(BoardToStrings(EmptyBoard), false))]
  {
    if s.pending.None? then PairResult(s.(pending := Some(c2)), false, [])
    else
      var c1 := s.pending.value;
      var n := s.counter + 1;
      var rid := RoomName(n);
      // The room both players have joined, as `PairJoinsBoth` shows.
      var rm := Room(rid, Options(0), NewGame(), map[c1 := X, c2 := O], map[X := c1, O := c2], map[], 2);
      var conns := s.conns[c1 := s.conns[c1].(mark := X, peer := Some(c2), room := Some(rid))]
                          [c2 := s.conns[c2].(mark := O, peer := Some(c1), room := Some(rid))];
      assert forall c :: c in s.conns && c != c1 && c != c2 ==> conns[c] == s.conns[c];
      var st := rm.state;
      var out := [Envelope(c1, Assigned(X)), Envelope(c2, Assigned(O)),
                  Envelope(c1, Start(BoardToStrings(st.board), st.nextTurn == X)),
                  Envelope(c2, Start(BoardToStrings(st.board), st.nextTurn == O))];
      PairResult(Server(None, n, conns, s.rooms[rid := rm]), true, out)
  }

  /**
   * The room `pair` creates is a new room with no grace period that the
   * waiting connection joined as X and the arrival then joined as O.
   */
  lemma PairJoinsBoth(s: Server, c2: string)
    requires c2 in s.conns
    requires s.pending.Some? && s.pending.value in s.conns && s.pending.value != c2
    ensures var rid := RoomName(s.counter + 1);
      Pair(s, c2).server.rooms[rid] == Join(Join(NewRoom(rid, Options(0)), Player(s.pending.value, X)), Player(c2, O))
  {
    var rid := RoomName(s.counter + 1);
    var c1 := s.pending.value;
    assert Pair(s, c2).server.rooms[rid] == Room(rid, Options(0), NewGame(), map[c1 := X, c2 := O], map[X := c1, O := c2], map[], 2);
    TwoPlayerRoom(rid, Options(0), c1, c2);
  }

  /** The room `pair` creates is valid. */
  lemma PairRoomValid(s: Server, c2: string)
    requires c2 in s.conns
    requires s.pending.Some? && s.pending.value in s.conns && s.pending.value != c2
    ensures Valid(Pair(s, c2).server.rooms[RoomName(s.counter + 1)])
  {
    var rid := RoomName(s.counter + 1);
    var rm := Pair(s, c2).server.rooms[rid];
    assert rm.state == NewGame() && rm.joined == 2;
    TwoPlayerRoomValid(rm, s.pending.value, c2);
  }

  /**
   * Each paired connection's start message says it is its turn exactly
   * when its mark is the one the new game expects next.
   */
  lemma StartTellsWhoMoves(s: Server, c2: string)
    requires c2 in s.conns
    requires s.pending.Some? && s.pending.value in s.conns && s.pending.value != c2
    ensures var r := Pair(s, c2);
      var next := r.server.rooms[RoomName(s.counter + 1)].state.nextTurn;
      && r.out[2].msg.Start? && r.out[3].msg.Start?
      && {r.out[2].to, r.out[3].to} == {s.pending.value, c2}
      && (r.out[2].msg.yourTurn <==> r.server.conns[r.out[2].to].mark == next)
      && (r.out[3].msg.yourTurn <==> r.server.conns[r.out[3].to].mark == next)
  {
    var r := Pair(s, c2);
    assert NewGame().nextTurn == X;
  }

  /**
   * A connection arrives: it takes the next counter value as its id
   * ("p" followed by the number) and goes through `pair`.
   */
  function Arrive(s: Server): (r: PairResult)
    requires Inv(s)
    ensures r.server.conns.Keys == s.conns.Keys + {ConnId(s.counter + 1)}
    ensures |r.server.conns| == |s.conns| + 1
    ensures s.pending.None? ==>
      && !r.paired && r.server.pending == Some(ConnId(s.counter + 1))
      && r.server.rooms == s.rooms && r.server.counter == s.counter + 1
    ensures s.pending.Some? ==>
      && r.paired && r.server.pending.None?
      && |r.server.rooms| == |s.rooms| + 1 && r.server.counter == s.counter + 2
    ensures s.pending.None? ==>
      r.server.conns == s.conns[ConnId(s.counter + 1) := FreshConn] && r.out == []
    ensures s.pending.Some? ==>
      var c1 := s.pending.value;
      var c2 := ConnId(s.counter + 1);
      var rid := RoomName(s.counter + 2);
      && r.server.conns[c1].mark == X && r.server.conns[c2].mark == O
      && r.server.conns[c1].peer == Some(c2) && r.server.conns[c2].peer == Some(c1)
      && r.server.conns[c1].room == Some(rid) && r.server.conns[c2].room == Some(rid)
      && r.server.rooms.Keys == s.rooms.Keys + {rid} && r.server.rooms[rid].players == map[c1 := X, c2 := O]
  {
    var id := ConnId(s.counter + 1);
    var s1 := s.(counter := s.counter + 1, conns := s.conns[id := FreshConn]);
    if s.pending.None? then
      ArriveAlone(s);
      Pair(s1, id)
    else
      ArriveMatched(s);
      Pair(s1, id)
  }

  /** `Arrive` with nobody waiting: the arrival takes the slot and nothing is sent. */
  lemma ArriveAlone(s: Server)
    requires Inv(s) && s.pending.None?
    ensures var id := ConnId(s.counter + 1);
      var r := Pair(s.(counter := s.counter + 1, conns := s.conns[id := FreshConn]), id);
      && id !in s.conns
      && !r.paired && r.server.pending == Some(id)
      && r.server.rooms == s.rooms && r.server.counter == s.counter + 1
      && r.server.conns == s.conns[id := FreshConn] && r.out == []
      && r.server.conns.Keys == s.conns.Keys + {id} && |r.server.conns| == |s.conns| + 1
  {
  }

  /** `Arrive` with a connection waiting: the two are paired in the next room. */
  lemma ArriveMatched(s: Server)
    requires Inv(s) && s.pending.Some?
    ensures var c1 := s.pending.value;
      var c2 := ConnId(s.counter + 1);
      var rid := RoomName(s.counter + 2);
      var r := Pair(s.(counter := s.counter + 1, conns := s.conns[c2 := FreshConn]), c2);
      && c2 !in s.conns && rid !in s.rooms
      && r.paired && r.server.pending.None? && r.server.counter == s.counter + 2
      && r.server.conns.Keys == s.conns.Keys + {c2}
      && r.server.rooms.Keys == s.rooms.Keys + {rid}
      && r.server.conns[c1].mark == X && r.server.conns[c2].mark == O
      && r.server.conns[c1].peer == Some(c2) && r.server.conns[c2].peer == Some(c1)
      && r.server.conns[c1].room == Some(rid) && r.server.conns[c2].room == Some(rid)
      && rid in r.server.rooms && r.server.rooms[rid].players == map[c1 := X, c2 := O]
      && |r.server.conns| == |s.conns| + 1 && |r.server.rooms| == |s.rooms| + 1
  {
    assert ConnId(s.counter + 1) !in s.conns && RoomName(s.counter + 2) !in s.rooms;
  }

  /** An arrival keeps every unused counter value unused and the pending connection known. */
  lemma ArriveKeepsInv(s: Server)
    requires Inv(s)
    ensures Inv(Arrive(s).server)
  {
    KeepsFresh(s, Arrive(s).server);
  }

  /**
   * A server that adds at most the next connection id and the room id after
   * it, and moves its counter past them, keeps every unused value unused.
   */
  lemma KeepsFresh(s: Server, t: Server)
    requires Inv(s)
    requires t.conns.Keys <= s.conns.Keys + {ConnId(s.counter + 1)}
    requires t.rooms.Keys <= s.rooms.Keys + {RoomName(s.counter + 2)}
    requires t.counter >= s.counter + 1
    requires t.counter == s.counter + 1 ==> t.rooms.Keys <= s.rooms.Keys
    requires t.pending.Some? ==> t.pending.value in t.conns
    ensures Inv(t)
  {
    forall j | j > t.counter
      ensures ConnId(j) !in t.conns && RoomName(j) !in t.rooms
    {
      ConnIdInjective(j, s.counter + 1);
      if j != s.counter + 2 {
        RoomNameInjective(j, s.counter + 2);
      }
    }
  }

  /**
   * The server after `k` connections have arrived: `k` distinct
   * connections and `k / 2` rooms, with a connection pending exactly when
   * `k` is odd.
   */
  function Arrivals(k: nat): (s: Server)
    ensures Inv(s)
    ensures |s.conns| == k
    ensures |s.rooms| == k / 2
    ensures s.pending.Some? <==> k % 2 == 1
    ensures s.counter == k + k / 2
  {
    if k == 0 then NewServer()
    else
      var prev := Arrivals(k - 1);
      ArriveStep(prev, k - 1);
      ArriveKeepsInv(prev);
      Arrive(prev).server
  }

  /** One arrival moves the shape of `n` arrivals to that of `n + 1`. */
  lemma ArriveStep(s: Server, n: nat)
    requires Inv(s)
    requires |s.conns| == n && |s.rooms| == n / 2 && (s.pending.Some? <==> n % 2 == 1) && s.counter == n + n / 2
    ensures var t := Arrive(s).server;
      && |t.conns| == n + 1 && |t.rooms| == (n + 1) / 2
      && (t.pending.Some? <==> (n + 1) % 2 == 1) && t.counter == (n + 1) + (n + 1) / 2
  {
  }

  /** What a step hands back: the server after it and the queued messages. */
  datatype Effect = Effect(server: Server, out: seq<Envelope>)

  /** The disconnecting connection is in a room with a live peer, so the game is forfeited. */
  predicate ForfeitApplies(s: Server, cid: string)
    requires cid in s.conns
  {
    var c := s.conns[cid];
    && c.room.Some? && c.room.value in s.rooms
    && c.peer.Some? && c.peer.value in s.conns
    && !s.conns[c.peer.value].closed
  }

  /**
   * `handleDisconnect`: the first call closes the connection; when it is
   * in a room with a peer that is still open, it also leaves the room and
   * sends the peer the resulting status. Later calls do nothing.
   */
  function Disconnect(s: Server, cid: string): (e: Effect)
    requires cid in s.conns
    ensures s.conns[cid].closed ==> e == Effect(s, [])
    ensures !s.conns[cid].closed ==>
      && e.server.conns == s.conns[cid := s.conns[cid].(closed := true)]
      && e.server.pending == s.pending && e.server.counter == s.counter
    ensures !s.conns[cid].closed && ForfeitApplies(s, cid) ==>
      var rid := s.conns[cid].room.value;
      var after := Leave(s.rooms[rid], cid);
      && e.server.rooms == s.rooms[rid := after]
      && e.out == [Envelope(s.conns[cid].peer.value, ResultMsg(OutcomeText(after.state.status)))]
    ensures !s.conns[cid].closed && !ForfeitApplies(s, cid) ==> e.server.rooms == s.rooms && e.out == []
  {
    var c := s.conns[cid];
    if c.closed then Effect(s, [])
    else
      var s1 := s.(conns := s.conns[cid := c.(closed := true)]);
      if ForfeitApplies(s, cid) then
        var rid := c.room.value;
        var rm := Leave(s.rooms[rid], cid);
        Effect(s1.(rooms := s.rooms[rid := rm]), [Envelope(c.peer.value, ResultMsg(OutcomeText(rm.state.status)))])
      else Effect(s1, [])
  }

  /** The once-guard: a second disconnect of the same connection changes nothing and sends nothing. */
  lemma DisconnectOnce(s: Server, cid: string)
    requires cid in s.conns
    ensures var e := Disconnect(s, cid);
            cid in e.server.conns && Disconnect(e.server, cid) == Effect(e.server, [])
  {
  }

  /**
   * After a pairing, either player disconnecting ends the game in the
   * other's favour, and the other is told so with the matching result text.
   */
  lemma PairedDisconnectForfeits(s: Server, c2: string, leaver: string)
    requires c2 in s.conns
    requires s.pending.Some? && s.pending.value in s.conns && s.pending.value != c2
    requires !s.conns[s.pending.value].closed && !s.conns[c2].closed
    requires leaver == s.pending.value || leaver == c2
    ensures var p := Pair(s, c2).server;
            var e := Disconnect(p, leaver);
            var rid := RoomName(s.counter + 1);
            var winner := if leaver == c2 then XWins else OWins;
            && e.server.rooms[rid].state.status == winner
            && e.out == [Envelope(p.conns[leaver].peer.value, ResultMsg(OutcomeText(winner)))]
  {
  }

  /** A client message after decoding. */
  datatype ClientMsg = ClientMsg(typ: string, position: Option<int>, msgId: string, clientSeq: int)

  /** What one read of the connection yields. */
  datatype Frame = ReadFailed | NonText | Undecodable(detail: string) | Text(msg: ClientMsg)

  /** What one turn of the reader loop hands back; `more` is false when the loop returns. */
  datatype Reaction = Reaction(server: Server, out: seq<Envelope>, more: bool)

  /**
   * A "move" command: refused as not ready before pairing and as invalid
   * without a position; otherwise submitted to the room with the
   * connection's own id and mark. An error goes back to the sender only; a
   * success sends the new state to both players and, when the game is over,
   * the result to both. With `skipClosedPeer` the peer's copies are dropped
   * once the peer's send queue is closed.
   */
  function MoveCommand(s: Server, cid: string, msg: ClientMsg, skipClosedPeer: bool): (r: Reaction)
    requires cid in s.conns
    ensures r.more && r.server.conns == s.conns && r.server.pending == s.pending && r.server.counter == s.counter
    ensures forall k :: 0 <= k < |r.out| ==>
              r.out[k].to == cid || Some(r.out[k].to) == s.conns[cid].peer
    ensures !Ready(s, cid) ==> r == Reaction(s, [Envelope(cid, ErrorMsg("NOT_READY", ""))], true)
    ensures Ready(s, cid) && msg.position.None? ==>
              r == Reaction(s, [Envelope(cid, ErrorMsg("INVALID", "missing position"))], true)
    ensures Ready(s, cid) && msg.position.Some? ==>
      var c := s.conns[cid];
      var sub := Submit(s.rooms[c.room.value], Move(cid, msg.position.value, msg.msgId, msg.clientSeq, c.mark));
      var toPeer := !skipClosedPeer || !s.conns[c.peer.value].closed;
      var sm := StateMsg(BoardToStrings(sub.state.board), sub.state.nextTurn, sub.state.serverSeq);
      var rm := ResultMsg(OutcomeText(sub.state.status));
      && r.server.rooms == s.rooms[c.room.value := sub.room]
      && (sub.err.Some? ==> r.out == [Envelope(cid, ErrorMsg(ErrCode(Sentinel(sub.err.value)), ErrorText(sub.err.value)))])
      && (sub.err.None? ==>
            && |r.out| == (if toPeer then 2 else 1) * (if sub.state.status != InProgress then 2 else 1)
            && r.out[0] == Envelope(cid, sm)
            && (toPeer ==> r.out[1] == Envelope(c.peer.value, sm))
            && (sub.state.status != InProgress ==>
                  && r.out[if toPeer then 2 else 1] == Envelope(cid, rm)
                  && (toPeer ==> r.out[3] == Envelope(c.peer.value, rm)))
            && (forall k :: 0 <= k < |r.out| ==> r.out[k].msg == sm || r.out[k].msg == rm))
  {
    var self := s.conns[cid];
    if !Ready(s, cid) then
      Reaction(s, [Envelope(cid, ErrorMsg("NOT_READY", ""))], true)
    else if msg.position.None? then
      Reaction(s, [Envelope(cid, ErrorMsg("INVALID", "missing position"))], true)
    else
      var rid := self.room.value;
      var peer := self.peer.value;
      var sub := Submit(s.rooms[rid], Move(cid, msg.position.value, msg.msgId, msg.clientSeq, self.mark));
      var s' := s.(rooms := s.rooms[rid := sub.room]);
      match sub.err
      case Some(e) => Reaction(s', [Envelope(cid, ErrorMsg(ErrCode(Sentinel(e)), ErrorText(e)))], true)
      case None =>
        var ns := sub.state;
        var toPeer := !skipClosedPeer || !s.conns[peer].closed;
        var sm := StateMsg(BoardToStrings(ns.board), ns.nextTurn, ns.serverSeq);
        var rm := ResultMsg(OutcomeText(ns.status));
        var states := [Envelope(cid, sm)] + (if toPeer then [Envelope(peer, sm)] else []);
        var results :=
          if ns.status != InProgress then [Envelope(cid, rm)] + (if toPeer then [Envelope(peer, rm)] else [])
          else [];
        Reaction(s', states + results, true)
  }

  /** The connection has a room and a peer, both known: the reader's room and peer are set. */
  predicate Ready(s: Server, cid: string)
    requires cid in s.conns
  {
    var c := s.conns[cid];
    c.room.Some? && c.peer.Some? && c.room.value in s.rooms && c.peer.value in s.conns
  }

  /** One turn of the reader loop, with or without dropping messages to a closed peer. */
  function ReaderTurn(s: Server, cid: string, f: Frame, skipClosedPeer: bool): (r: Reaction)
    requires cid in s.conns
  {
    match f
    case ReadFailed =>
      var e := Disconnect(s, cid);
      Reaction(e.server, e.out, false)
    case NonText => Reaction(s, [], true)
    case Undecodable(detail) => Reaction(s, [Envelope(cid, ErrorMsg("BAD_JSON", detail))], true)
    case Text(msg) =>
      var t := AsciiLower(msg.typ);
      if t == "move" then MoveCommand(s, cid, msg, skipClosedPeer)
      else if t == "leave" then
        var e := Disconnect(s, cid);
        Reaction(e.server, e.out, false)
      else if t == "ping" then Reaction(s, [], true)
      else Reaction(s, [Envelope(cid, ErrorMsg("UNKNOWN_TYPE", ""))], true)
  }

  /**
   * The reader loop's turn as the server runs it: a read failure or a
   * "leave" disconnects and ends the loop; a non-text frame and "ping" are
   * ignored; an undecodable frame or an unknown type is answered with an
   * error to the sender only; "move" is dispatched as above. The type is
   * matched without regard to ASCII case.
   */
  function Step(s: Server, cid: string, f: Frame): (r: Reaction)
    requires cid in s.conns
    ensures (f.ReadFailed? || (f.Text? && AsciiLower(f.msg.typ) == "leave")) ==>
              !r.more && r.server == Disconnect(s, cid).server && r.out == Disconnect(s, cid).out
    ensures (f.NonText? || (f.Text? && AsciiLower(f.msg.typ) == "ping")) ==> r == Reaction(s, [], true)
    ensures f.Undecodable? ==> r == Reaction(s, [Envelope(cid, ErrorMsg("BAD_JSON", f.detail))], true)
    ensures (f.Text? && AsciiLower(f.msg.typ) !in {"move", "leave", "ping"}) ==>
              r == Reaction(s, [Envelope(cid, ErrorMsg("UNKNOWN_TYPE", ""))], true)
    ensures (f.Text? && AsciiLower(f.msg.typ) == "move") ==> r == MoveCommand(s, cid, f.msg, false)
    ensures r.more ==> r.server.conns == s.conns
    ensures forall k :: 0 <= k < |r.out| ==>
              r.out[k].to == cid || Some(r.out[k].to) == s.conns[cid].peer
  {
    ReaderTurn(s, cid, f, false)
  }

  /** Some queued message is addressed to a connection whose send queue is closed. */
  predicate WritesToClosed(s: Server, out: seq<Envelope>)
  {
    exists k :: 0 <= k < |out| && out[k].to in s.conns && s.conns[out[k].to].closed
  }

  /**
   * As the server runs it, replaying a cached message id after the peer has
   * left queues the replayed state for the peer, whose send queue is
   * already closed.
   */
  lemma ReplayAfterPeerLeftWritesToClosed(s: Server, cid: string, msg: ClientMsg)
    requires cid in s.conns
    requires var c := s.conns[cid];
      && c.room.Some? && c.room.value in s.rooms && c.peer.Some? && c.peer.value in s.conns
      && s.conns[c.peer.value].closed
      && msg.msgId in s.rooms[c.room.value].hist
    requires AsciiLower(msg.typ) == "move" && msg.position.Some?
    ensures WritesToClosed(s, Step(s, cid, Text(msg)).out)
  {
    var peer := s.conns[cid].peer.value;
    var out := Step(s, cid, Text(msg)).out;
    assert out[1].to == peer;
  }

  /**
   * The replay is reachable right after pairing: X opens on cell 0, O
   * leaves, and X's client resends the same move.
   */
  lemma ReplayAfterLeaveIsReachable(s: Server, c2: string, msg: ClientMsg)
    requires c2 in s.conns
    requires s.pending.Some? && s.pending.value in s.conns && s.pending.value != c2
    requires !s.conns[s.pending.value].closed && !s.conns[c2].closed
    requires AsciiLower(msg.typ) == "move" && msg.position == Some(0) && msg.clientSeq == 1
    ensures var c1 := s.pending.value;
      var paired := Pair(s, c2).server;
      var moved := Step(paired, c1, Text(msg)).server;
      var left := Step(moved, c2, Text(ClientMsg("leave", None, "", 0))).server;
      WritesToClosed(left, Step(left, c1, Text(msg)).out)
  {
    var c1 := s.pending.value;
    var rid := RoomName(s.counter + 1);
    var paired := Pair(s, c2).server;
    PairJoinsBoth(s, c2);
    OpeningIsRecorded(paired, c1, msg);
    var moved := Step(paired, c1, Text(msg)).server;
    LeaveKeepsHistory(moved, c2, c1);
    var left := Step(moved, c2, Text(ClientMsg("leave", None, "", 0))).server;
    ReplayAfterPeerLeftWritesToClosed(left, c1, msg);
  }

  /** X's opening move on a fresh paired room is accepted and recorded under its message id. */
  lemma OpeningIsRecorded(s: Server, c1: string, msg: ClientMsg)
    requires c1 in s.conns && Ready(s, c1) && s.conns[c1].mark == X
    requires var rm := s.rooms[s.conns[c1].room.value];
      rm.state == NewGame() && c1 in rm.players && rm.players[c1] == X && rm.hist == map[]
    requires AsciiLower(msg.typ) == "move" && msg.position == Some(0) && msg.clientSeq == 1
    ensures var t := Step(s, c1, Text(msg)).server;
      && t.conns == s.conns
      && t.rooms.Keys == s.rooms.Keys
      && msg.msgId in t.rooms[s.conns[c1].room.value].hist
  {
    var mv := Move(c1, 0, msg.msgId, 1, X);
    FirstSeqIsOne(mv);
  }

  /** A "leave" from `c2` closes it and leaves every other connection and every room's history as they were. */
  lemma LeaveKeepsHistory(s: Server, c2: string, c1: string)
    requires c2 in s.conns && c1 in s.conns && c1 != c2 && !s.conns[c2].closed
    ensures var t := Step(s, c2, Text(ClientMsg("leave", None, "", 0))).server;
      && c2 in t.conns && t.conns[c2].closed
      && c1 in t.conns && t.conns[c1] == s.conns[c1]
      && t.rooms.Keys == s.rooms.Keys
      && forall id :: id in s.rooms ==> t.rooms[id].hist == s.rooms[id].hist
  {
    assert AsciiLower("leave") == "leave";
  }

  /** The queued messages, in order, without those addressed to `to`. */
  function Drop(out: seq<Envelope>, to: string): (r: seq<Envelope>)
    ensures |r| <= |out|
    ensures forall k :: 0 <= k < |r| ==> r[k].to != to && r[k] in out
    ensures forall e :: e in out && e.to != to ==> e in r
  {
    if |out| == 0 then []
    else (if out[0].to == to then [] else [out[0]]) + Drop(out[1..], to)
  }

  lemma {:induction false} DropAppend(a: seq<Envelope>, b: seq<Envelope>, to: string)
    ensures Drop(a + b, to) == Drop(a, to) + Drop(b, to)
  {
    if |a| == 0 {
      assert a + b == b;
    } else {
      assert (a + b)[1..] == a[1..] + b;
      DropAppend(a[1..], b, to);
    }
  }

  /** The peer of an open connection is known and its send queue is closed. */
  predicate PeerClosed(s: Server, cid: string)
    requires cid in s.conns
  {
    var c := s.conns[cid];
    c.peer.Some? && c.peer.value in s.conns && s.conns[c.peer.value].closed
  }

  /**
   * The reader loop's turn with the peer check added: messages for the
   * peer are dropped once the peer's send queue is closed.
   */
  function GuardedStep(s: Server, cid: string, f: Frame): (r: Reaction)
    requires cid in s.conns
    ensures !s.conns[cid].closed ==> !WritesToClosed(s, r.out)
    ensures forall k :: 0 <= k < |r.out| ==>
              r.out[k].to == cid || Some(r.out[k].to) == s.conns[cid].peer
  {
    ReaderTurn(s, cid, f, true)
  }

  /**
   * For an open connection whose peer is closed, the guarded turn is `Step`
   * with exactly the peer's messages removed: the same server, the same
   * loop decision, and every reply to the sender kept in order.
   */
  lemma GuardedStepDropsPeer(s: Server, cid: string, f: Frame)
    requires cid in s.conns && !s.conns[cid].closed && PeerClosed(s, cid)
    ensures var st := Step(s, cid, f);
            GuardedStep(s, cid, f) == Reaction(st.server, Drop(st.out, s.conns[cid].peer.value), st.more)
  {
    if f.Text? && AsciiLower(f.msg.typ) == "move" {
      MoveDropsPeer(s, cid, f.msg);
    }
  }

  /** The move command's part of `GuardedStepDropsPeer`. */
  lemma MoveDropsPeer(s: Server, cid: string, msg: ClientMsg)
    requires cid in s.conns && !s.conns[cid].closed && PeerClosed(s, cid)
    ensures var st := MoveCommand(s, cid, msg, false);
            MoveCommand(s, cid, msg, true) == Reaction(st.server, Drop(st.out, s.conns[cid].peer.value), st.more)
  {
    var peer := s.conns[cid].peer.value;
    if Ready(s, cid) && msg.position.Some? {
      var c := s.conns[cid];
      var sub := Submit(s.rooms[c.room.value], Move(cid, msg.position.value, msg.msgId, msg.clientSeq, c.mark));
      if sub.err.None? {
        var sm := StateMsg(BoardToStrings(sub.state.board), sub.state.nextTurn, sub.state.serverSeq);
        var rm := ResultMsg(OutcomeText(sub.state.status));
        var results := if sub.state.status != InProgress then [Envelope(cid, rm)] + [Envelope(peer, rm)] else [];
        DropAppend([Envelope(cid, sm)] + [Envelope(peer, sm)], results, peer);
        DropAppend([Envelope(cid, sm)], [Envelope(peer, sm)], peer);
        if sub.state.status != InProgress {
          DropAppend([Envelope(cid, rm)], [Envelope(peer, rm)], peer);
        }
      }
    }
  }

  /** The guard only ever removes messages to a closed peer: with an open peer both turns agree. */
  lemma GuardedStepAgreesWithOpenPeer(s: Server, cid: string, f: Frame)
    requires cid in s.conns
    requires var c := s.conns[cid]; c.peer.Some? && c.peer.value in s.conns && !s.conns[c.peer.value].closed
    ensures GuardedStep(s, cid, f) == Step(s, cid, f)
  {
  }

  /** The message type is matched without regard to ASCII case. */
  lemma StepIgnoresCase(s: Server, cid: string, msg: ClientMsg)
    requires cid in s.conns
    ensures Step(s, cid, Text(msg)) == Step(s, cid, Text(msg.(typ := AsciiLower(msg.typ))))
  {
    AsciiLowerIdempotent(msg.typ);
  }
}

=== FILE: wire.dfy ===
/**
 * The server's pure lookup tables: the text of a mark and of a board, the
 * result text of an outcome, the error code of an engine error, and the
 * ASCII lower-casing used to classify a client message type.
 */
module Wire {
  import opened Base
  import opened Engine

  /** A mark as the string it is (Go's `string(mark)`). */
  function MarkText(m: Mark): string
  {
    match m
    case Empty => ""
    case X => "X"
    case O => "O"
  }

  /** The mark a cell string denotes, if any. */
  function ParseMark(t: string): Option<Mark>
  {
    if t == "" then Some(Empty)
    else if t == "X" then Some(X)
    else if t == "O" then Some(O)
    else None
  }

  /** `boardToStrings`: the nine cells of a board as strings, cell by cell. */
  function BoardToStrings(b: Board): (r: seq<string>)
    ensures |r| == 9
    ensures forall i :: 0 <= i < 9 ==> ParseMark(r[i]) == Some(b[i])
  {
    seq(9, i requires 0 <= i < 9 => MarkText(b[i]))
  }

  /** Reads nine cell strings back into a board. */
  function ParseBoard(cells: seq<string>): Option<Board>
  {
    if |cells| != 9 then None
    else if forall i :: 0 <= i < 9 ==> ParseMark(cells[i]).Some? then
      Some(seq(9, i requires 0 <= i < 9 && ParseMark(cells[i]).Some? => ParseMark(cells[i]).value))
    else None
  }

  /** A board survives being sent as strings: reading them back gives the same board. */
  lemma BoardStringsRoundTrip(b: Board)
    ensures ParseBoard(BoardToStrings(b)) == Some(b)
  {
    var r := BoardToStrings(b);
    var back := seq(9, i requires 0 <= i < 9 && ParseMark(r[i]).Some? => ParseMark(r[i]).value);
    assert back == b;
  }

  /** Two boards with the same strings are the same board. */
  lemma BoardToStringsInjective(a: Board, b: Board)
    requires BoardToStrings(a) == BoardToStrings(b)
    ensures a == b
  {
    BoardStringsRoundTrip(a);
    BoardStringsRoundTrip(b);
  }

  /** `outcomeText`: the result line shown for an outcome. */
  function OutcomeText(o: Outcome): string
  {
    match o
    case XWins => "X wins!"
    case OWins => "O wins!"
    case Draw => "Draw"
    case InProgress => "In progress"
  }

  /** Reads a result line back into the outcome it announces. */
  function ParseOutcomeText(t: string): Option<Outcome>
  {
    if t == "X wins!" then Some(XWins)
    else if t == "O wins!" then Some(OWins)
    else if t == "Draw" then Some(Draw)
    else if t == "In progress" then Some(InProgress)
    else None
  }

  /** Each outcome has its own text: the text reads back as the outcome. */
  lemma OutcomeTextRoundTrip(o: Outcome)
    ensures ParseOutcomeText(OutcomeText(o)) == Some(o)
  {
  }

  /** An error as the server sees it: one of the engine's sentinels, or anything else. */
  datatype ErrorValue = Sentinel(e: Error) | Foreign(detail: string)

  /** `engineErrCode`: the protocol error code for an error. */
  function ErrCode(err: ErrorValue): (code: string)
    ensures code == "UNKNOWN" <==> err.Foreign?
  {
    match err
    case Sentinel(NotYourTurn) => "NOT_YOUR_TURN"
    case Sentinel(InvalidPosition) => "INVALID_POSITION"
    case Sentinel(CellTaken) => "CELL_TAKEN"
    case Sentinel(OutOfOrder) => "OUT_OF_ORDER"
    case Sentinel(Terminal) => "TERMINAL"
    case Foreign(_) => "UNKNOWN"
  }

  /** Reads a protocol error code back; "UNKNOWN" and any other text name no sentinel. */
  function ParseErrCode(code: string): (r: Option<Error>)
    ensures r.Some? ==> ErrCode(Sentinel(r.value)) == code
  {
    if code == "NOT_YOUR_TURN" then Some(NotYourTurn)
    else if code == "INVALID_POSITION" then Some(InvalidPosition)
    else if code == "CELL_TAKEN" then Some(CellTaken)
    else if code == "OUT_OF_ORDER" then Some(OutOfOrder)
    else if code == "TERMINAL" then Some(Terminal)
    else None
  }

  /** Each sentinel's code reads back as that sentinel. */
  lemma ErrCodeRoundTrip(e: Error)
    ensures ParseErrCode(ErrCode(Sentinel(e))) == Some(e)
  {
  }

  /** The code names the sentinel: distinct sentinels get distinct codes. */
  lemma ErrCodeInjective(a: Error, b: Error)
    requires a != b
    ensures ErrCode(Sentinel(a)) != ErrCode(Sentinel(b))
  {
  }

  /** ASCII lower-casing of a client message type. */
  function AsciiLower(s: string): (r: string)
    ensures |r| == |s|
    ensures forall i :: 0 <= i < |s| ==> ('A' <= s[i] <= 'Z' <==> r[i] != s[i])
    ensures forall i :: 0 <= i < |s| ==> !('A' <= r[i] <= 'Z')
    ensures forall i :: 0 <= i < |s| && 'A' <= s[i] <= 'Z' ==>
              'a' <= r[i] <= 'z' && (r[i] as int) - ('a' as int) == (s[i] as int) - ('A' as int)
  {
    seq(|s|, i requires 0 <= i < |s| =>
      if 'A' <= s[i] <= 'Z' then ((s[i] as int) + 32) as char else s[i])
  }

  /** Lower-casing twice is lower-casing once. */
  lemma AsciiLowerIdempotent(s: string)
    ensures AsciiLower(AsciiLower(s)) == AsciiLower(s)
  {
  }
}
